=== FILE: README.md ===
# server-sync key-value store, modelled in Dafny

The system is a minimal networked key-value store. A `Server` holds one
in-memory mapping from string keys to JSON values and, per call of `listen`,
takes one request off a stream ("tcp") or datagram ("udp") socket and
dispatches it: `update` merges the request's data into the mapping, `get`
sends the whole mapping back, `clear` empties it, and any other type is
ignored. A `Client` builds those three requests and sends each over a fresh
socket. On the stream transport every message is framed by its length as a
4-byte unsigned big-endian integer.

This project models, as pure functions over immutable values:

- `BigEndian` (bigendian.dfy): `int.from_bytes(..., 'big')` and `n.to_bytes(k, 'big')`
  over bytes, with their range and round-trip facts.
- `Framing` (framing.dfy): the length-prefixed frame the server and the client
  both write and read; decoding a written frame gives back the payload and
  re-encoding a read payload gives back the bytes read.
- `Transport` (transport.dfy): the "tcp"/"udp" choice and what each transport
  puts on the wire for one message.
- `JsonValue` (json.dfy): JSON values, the store, and the JSON text codec,
  which is a parameter (two functions), not a definition.
- `Dispatch` (dispatch.dfy): the request step shared by both transports,
  `Server.update_data`, and the requests the client builds.
- `StoreServer` (server.dfy): `Server.__init__`, including the address rules
  of the socket's `bind` and `listen` calls, and one `listen` call, given the
  received bytes and returning the bytes sent back.
- `StoreClient` (client.dfy): `_create_socket`, `_send_request`,
  `_receive_response` and the `update`/`get`/`clear` calls.
- `Session` (session.dfy): a client and a server on the same transport, end to
  end. These lemmas assume that the JSON codec parses what it serialised,
  that client and server use the same transport, and that on the stream
  transport each message is shorter than 2^32 bytes. Datagram size limits are
  not modelled (see Left out).
- `Wrappers`, `Faults` (wrappers.dfy, faults.dfy): `Option`/`Result`, and the
  exceptions the code raises as values.

Facts about main.py that shape the model:
- The transport names are "tcp" and "udp".
- An unsupported name raises `ValueError`, modelled as the `UnsupportedTransport` fault.
- The frame readers never check for short reads and raise nothing for them.
  The decoder therefore requires a complete frame.
- `update` data that is not a JSON object is modelled as the `NotAMapping`
  fault. For most such values `dict.update` raises; see Left out for those it accepts.

## Model

| member | source | states |
|---|---|---|
| BigEndian.FromBytes | main.py:22 | the big-endian value of any k bytes is below 256^k, so the 4-byte prefix always reads as a length below 2^32 |
| BigEndian.ToBytes | main.py:32-33 | writing n as k big-endian bytes (when it fits) gives exactly k bytes that read back as n |
| BigEndian.ToBytesFromBytes | main.py:22 | every k-byte string is the k-byte representation of the value it reads as |
| BigEndian.FromBytesExample | main.py:22 | the byte order is big-endian: bytes 00 00 01 02 read as 258 |
| BigEndian.FromBytesInjective | main.py:22 | two equal-length byte strings with the same value are the same bytes |
| Framing.Encode | main.py:30-33 | a frame exists exactly for payloads shorter than 2^32 bytes (otherwise OverflowError); it is 4 + len bytes, its prefix reads as the payload length and the payload follows |
| Framing.DeclaredLength | main.py:21-22 | the length read from the first four bytes is below 2^32 |
| Framing.Decode | main.py:21-24 | the reader takes as many payload bytes as the prefix declares; prefix, payload and the remaining bytes make up the stream |
| Framing.DecodeEncode | main.py:21-33 | a frame the writer produced, followed by anything, is read back as exactly its payload with the following bytes untouched |
| Framing.EncodeDecode | main.py:21-33 | re-encoding the payload the reader took reproduces the exact bytes it consumed |
| Framing.HeaderIsFourBytes | main.py:32-33 | the length prefix is always exactly four bytes, followed by the payload |
| Transport.Parse | main.py:9-15 | only "tcp" and "udp" are accepted; any other name fails with a ValueError whose text names it |
| Transport.ParseName | main.py:9-15 | each transport kind is selected by its own name |
| Transport.Wrap | main.py:29-36 | a datagram carries the bare payload; a stream message is the 4-byte prefix reading as the payload length followed by the payload, and fails only when the payload is 2^32 bytes or longer |
| Transport.Unwrap | main.py:19-27 | a datagram is read whole; a stream read yields exactly the declared number of bytes that follow the prefix |
| Transport.UnwrapWrap | main.py:19-36 | on both transports the receiver gets back exactly the payload the sender wrapped |
| Dispatch.Merge | main.py:39-40 | after the merge, keys in the incoming mapping hold the new value, every other old key holds its old value, and no key is lost or invented |
| Dispatch.RequestType | main.py:48 | reading the type fails with TypeError for a non-object and KeyError without a "type" key, and otherwise yields that key's value |
| Dispatch.UpdateStore | main.py:39-40 | `update_data` succeeds exactly for a mapping and then yields the merge |
| Dispatch.Dispatch | main.py:48-55 | fails only without a type, or for an update whose data is missing or not a JSON object, and then raises the first failing step's exception (TypeError or KeyError 'type', KeyError 'data', NotAMapping); update merges, clear empties, get and only get replies and with exactly the store, every other type leaves the store unchanged |
| Dispatch.Request | main.py:112-134 | a client request is an object with exactly the keys "type" and "data", whose type the dispatcher reads as the given name and whose data is the given value |
| Dispatch.UpdateRequest | main.py:113-116 | the update request is read by the dispatcher as type "update" and carries the caller's data; Dispatch.ClientRequests gives its effect |
| Dispatch.GetRequest | main.py:122-125 | the get request is read as type "get" and carries null; Dispatch.ClientRequests gives its effect |
| Dispatch.ClearRequest | main.py:130-133 | the clear request is read as type "clear" and carries null; Dispatch.ClientRequests gives its effect |
| Dispatch.ClientRequests | main.py:112-134 | the client's update request merges its data (non-object data is the NotAMapping fault), its get request returns the whole store unchanged, its clear request empties it |
| Dispatch.UnknownTypeIgnored | main.py:61-67 | a request of any type other than update, get and clear changes nothing and gets no reply |
| Dispatch.MergeIdempotent | main.py:39-40 | applying the same update twice equals applying it once |
| Dispatch.MergeSequential | main.py:39-40 | two updates in a row equal one update with the second mapping laid over the first |
| Dispatch.ClearIdempotent | main.py:54-55 | clearing twice equals clearing once, and the result does not depend on the old store |
| Dispatch.GetReflectsUpdate | main.py:49-53 | a get after an update replies with the incoming keys at their new values and all other old keys at their old values |
| Dispatch.MergeExamples | main.py:39-40 | {"a": 1} updated with {"b": 2} is {"a": 1, "b": 2}; updated with {"a": 3} it is {"a": 3} |
| StoreServer.BindTo | main.py:17 | a port outside 0-65535 raises OverflowError; otherwise a socket gets its local address at most once, and binding a socket that already has one raises OSError (EINVAL) |
| StoreServer.StartListening | main.py:11 | listening (on a stream socket) makes it accept connections, giving it an ephemeral address if it had none and keeping the one it had |
| StoreServer.PrepareAsWritten | main.py:9-17 | as written, only a datagram socket on a port in 0-65535 gets bound; a stream socket, already auto-bound by listen, is refused with OSError (EINVAL), and a port out of range raises OverflowError |
| StoreServer.Prepare | main.py:9-17 | corrected: bind then listen yields a socket at the given port exactly when the port is in 0-65535 (otherwise OverflowError), accepting connections exactly for a stream socket |
| StoreServer.NewAsWritten | main.py:5-18 | as written, only a "udp" server on a port in 0-65535 is built; "tcp" always raises (OSError, or OverflowError for a port out of range) and any other name raises ValueError naming it |
| StoreServer.NewAsWrittenRefusesTcp | main.py:9-17 | as written, a "tcp" server fails on every port whatever ephemeral port is picked, with OSError (EINVAL) on every port `bind` accepts, where the corrected constructor succeeds |
| StoreServer.New | main.py:5-18 | corrected: a server is built exactly for "tcp" or "udp" on a port in 0-65535, on that port, with an empty store; any other name raises ValueError naming it, and a port out of range raises OverflowError |
| StoreServer.Listen | main.py:42-67 | one listen applies the dispatch step of the decoded request and keeps port and transport; it succeeds whenever the request decodes, dispatches and any reply fits; undecodable input raises, a refused request raises dispatch's exception, and an oversized reply raises OverflowError; a reply is sent only with the store unchanged and decodes to that store |
| StoreClient.CreateSocketAsWritten | main.py:75-81 | as written, only "tcp" and "udp" get a socket, and the ValueError for any other name carries the fixed text "unsupported type <class 'type'>" |
| StoreClient.AsWrittenMessageHidesKind | main.py:81 | as written, all rejected names give the same error, and "carrier-pigeon" is not named in it |
| StoreClient.CreateSocket | main.py:75-81 | corrected: only "tcp" and "udp" get a socket, and the ValueError names the rejected transport like the server's does |
| StoreClient.CreateSocketNamesKind | main.py:81 | corrected: different rejected names give different errors |
| StoreClient.SendRequest | main.py:83-97 | the request is sent exactly when the transport is supported and, on the stream, its text fits the prefix; what is sent is exactly the frame (4 + payload bytes) or the datagram holding the request's JSON text; a stream request of 2^32 bytes or more raises OverflowError |
| StoreClient.Update | main.py:112-119 | `update(data)` sends the update request carrying `data`, framed or as a datagram; Session.UpdateMerges gives its effect on the server |
| StoreClient.SendGet | main.py:121-126 | `get()` first sends the get request; Session.GetReturnsStore gives the reply it reads back |
| StoreClient.Clear | main.py:129-136 | `clear()` sends the clear request; Session.ClearEmpties gives its effect on the server |
| StoreClient.ReceiveResponse | main.py:99-110 | the client returns exactly the value the reply's payload parses to, and fails when it does not parse |
| Session.Deliver | main.py:83-93 | on either transport, the request the client sends is exactly the request the server's listen decodes |
| Session.GetReturnsStore | main.py:121-127 | a get leaves the server unchanged and the client reads back exactly the server's store |
| Session.UpdateMerges | main.py:112-119 | a client update merges its mapping into the server's store and no reply is sent |
| Session.ClearEmpties | main.py:129-136 | a client clear empties the server's store, whatever it held, and no reply is sent |
| Session.GetAfterUpdate | main.py:112-127 | update then get returns the old store overridden by the update's data on both transports; on an empty store, that data itself |
| Session.UnknownTypeIgnoredOnWire | main.py:42-67 | a request of any other type leaves the server unchanged and sends nothing, on both transports |

## Left out

- Socket I/O is not modelled: accept, connect, send, recv and close are operating-system I/O, and the try/finally cleanup is about releasing them. Of `socket()`, `bind` and `listen`, only the local-address rule behind the constructor finding is modelled. `listen` is given the bytes it receives, and the client calls are given the bytes they send.
- JSON text serialisation and parsing (`json.dumps` / `json.loads` with UTF-8) belong to a library. They are the `Codec` parameter. The end-to-end lemmas assume `loads(dumps(j)) == Some(j)` and prove nothing about JSON text.
- JSON numbers are modelled as integers only. Floating point is not modelled.
- Framing.Decode: requires the stream to hold a whole frame. `recv(4)` and `recv(length)` may return fewer bytes, and the code never checks, so what it does then is not modelled.
- Transport.Unwrap, Session.Deliver, Session.GetReturnsStore, Session.GetAfterUpdate, Session.UpdateMerges, Session.ClearEmpties, Session.UnknownTypeIgnoredOnWire: a datagram is read whole. `recvfrom(1024)` truncates a longer datagram, so in the source a datagram request or `get` reply over 1024 bytes reaches `json.loads` cut short and fails. These lemmas prove delivery on the datagram transport for any size.
- Dispatch.UpdateStore, Dispatch.Dispatch, Dispatch.ClientRequests: only a JSON object is merged as `update` data; every other value is the `NotAMapping` fault. Python's `dict.update` also accepts an iterable of key/value pairs. For a JSON array of pairs it would insert them, and their keys need not be strings, which a string-keyed store cannot hold. For an empty array or empty string it would change nothing. A failure part-way through such an iterable would leave the earlier pairs inserted.
- StoreServer.Listen: the datagram reply is always sent. `send_data` tests `if addr:`, and the address `recvfrom` returns is never empty.
- StoreServer.New: models the constructor with `bind` before `listen` (see Findings). Other OS errors from `bind`, such as a port already in use, are I/O and not modelled.
- StoreServer.BindTo, StoreServer.PrepareAsWritten, StoreServer.Prepare, StoreServer.NewAsWritten, StoreServer.NewAsWrittenRefusesTcp, StoreServer.New: binding to port 0 is modelled as binding to port 0. The operating system then picks a free port, which the model does not track. This does not change whether construction succeeds.
- StoreClient.SendRequest: builds on the corrected `CreateSocket`. For an unsupported transport name it raises "unsupported type <name>", whereas main.py:81 raises "unsupported type <class 'type'>". The same holds for `Update`, `SendGet` and `Clear`. The as-written text is `CreateSocketAsWritten`.
- `print` calls and `main()` carry no model-relevant behaviour.
- The `Client` constructor stores its arguments unchecked. It is the datatype constructor `StoreClient.Client`, whose transport name defaults to "tcp" as in the source; `StoreServer.New` has the same default.

## Findings

| source | as written | input that shows it | evidently intended | confidence | as-written member | corrected member |
|---|---|---|---|---|---|---|
| main.py:81 | the f-string formats the built-in `type`, not `self.type`, so the ValueError reads "unsupported type <class 'type'>" for every rejected name | a client built with transport "carrier-pigeon" | the message names the rejected transport, as the server's constructor does at main.py:15 | high; not executed | StoreClient.CreateSocketAsWritten | StoreClient.CreateSocket |
| main.py:11-17 | for "tcp", `listen(5)` runs before `bind`; listening auto-binds the socket to an ephemeral port, so the later `bind` raises OSError (EINVAL) | `Server(8000, "tcp")`, on any port | bind to the port, then listen, as the server's clients expect | medium (depends on the operating system auto-binding on listen, as Linux does); not executed | StoreServer.NewAsWritten | StoreServer.New |

=== FILE: bigendian.dfy ===
/**
  Unsigned big-endian integers of a fixed number of bytes: the model of
  Python's `int.from_bytes(b, byteorder='big')` and `n.to_bytes(k, byteorder='big')`.
 */
module BigEndian {

  newtype byte = x: int | 0 <= x < 256

  /** 256 raised to the k-th power: the number of values k bytes can hold. */
  function Pow256(k: nat): (r: nat)
    ensures r >= 1
  {
    if k == 0 then 1 else 256 * Pow256(k - 1)
  }

  /** The unsigned value of `s`, most significant byte first. Never fails,
      whatever the length of `s`, and always fits in |s| bytes. */
  function FromBytes(s: seq<byte>): (n: nat)
    ensures n < Pow256(|s|)
  {
    if |s| == 0 then 0
    else
      var high := FromBytes(s[..|s| - 1]);
      var low := s[|s| - 1] as nat;
      assert high * 256 + low < Pow256(|s|) by {
        assert high + 1 <= Pow256(|s| - 1);
        assert (high + 1) * 256 <= Pow256(|s| - 1) * 256;
      }
      high * 256 + low
  }

  /** The k-byte big-endian representation of `n`. Python raises OverflowError
      when `n` does not fit; here that case is excluded and callers check it. */
  function ToBytes(n: nat, k: nat): (s: seq<byte>)
    requires n < Pow256(k)
    ensures |s| == k
    ensures FromBytes(s) == n
  {
    if k == 0 then []
    else
      var q, m := n / 256, n % 256;
      assert n == q * 256 + m;
      var prefix := ToBytes(q, k - 1);
      var s := prefix + [m as byte];
      assert s[..k - 1] == prefix;
      assert s[k - 1] as nat == m;
      s
  }

  /** Reading k bytes and writing the value back as k bytes gives the same bytes:
      every byte string is the representation of exactly one value. */
  lemma {:induction false} ToBytesFromBytes(s: seq<byte>)
    ensures ToBytes(FromBytes(s), |s|) == s
  {
    if |s| > 0 {
      var k := |s|;
      var high := s[..k - 1];
      ToBytesFromBytes(high);
      var n := FromBytes(s);
      assert n / 256 == FromBytes(high);
      assert n % 256 == s[k - 1] as nat;
      assert s == high + [s[k - 1]];
    }
  }

  /** The most significant byte comes first: bytes 00 00 01 02 read as 258. */
  lemma FromBytesExample()
    ensures FromBytes([0 as byte, 0, 1, 2]) == 258
  {
    var s: seq<byte> := [0, 0, 1, 2];
    assert s[..1] == [0] && [0 as byte][..0] == [];
    assert FromBytes(s[..1]) == 0;
    assert s[..2][..1] == s[..1];
    assert FromBytes(s[..2]) == 0;
    assert s[..3][..2] == s[..2];
    assert FromBytes(s[..3]) == 1;
    assert s[..4][..3] == s[..3] && s[..4] == s;
  }

  /** Two byte strings of the same length with the same value are equal. */
  lemma FromBytesInjective(a: seq<byte>, b: seq<byte>)
    requires |a| == |b|
    requires FromBytes(a) == FromBytes(b)
    ensures a == b
  {
    ToBytesFromBytes(a);
    ToBytesFromBytes(b);
  }
}

=== FILE: client.dfy ===
/**
  The client: a fixed endpoint and transport name, one fresh socket per call.
  Each call is modelled by the bytes it transmits and, for `get`, by how it
  reads the reply. Sockets themselves are left out.
 */
module StoreClient {
  import opened Wrappers
  import opened Faults
  import opened BigEndian
  import opened JsonValue
  import opened Transport
  import Framing
  import Dispatch

  /** The transport name is stored unchecked; it is checked per call. */
  datatype Client = Client(host: string, port: int, kind: string := "tcp")

  /** The ValueError text `_create_socket` produces as written: the f-string
      names the built-in `type`, not the client's transport name. */
  const AsWrittenMessage: string := "unsupported type <class 'type'>"

  /** `_create_socket` as written. */
  function CreateSocketAsWritten(client: Client): (r: Result<Kind, Fault>)
    ensures r.Success? <==> client.kind == "tcp" || client.kind == "udp"
    ensures r.Success? ==> Name(r.value) == client.kind
    ensures r.Failure? ==> r.error == UnsupportedTransport(AsWrittenMessage)
  {
    match Parse(client.kind)
    case Success(kind) => Success(kind)
    case Failure(_) => Failure(UnsupportedTransport(AsWrittenMessage))
  }

  /** As written, the error cannot tell apart two different rejected names,
      and for "carrier-pigeon" it does not read "unsupported type carrier-pigeon". */
  lemma AsWrittenMessageHidesKind(a: Client, b: Client)
    requires CreateSocketAsWritten(a).Failure? && CreateSocketAsWritten(b).Failure?
    ensures CreateSocketAsWritten(a) == CreateSocketAsWritten(b)
    ensures
      var pigeon := Client("localhost", 8000, "carrier-pigeon");
      CreateSocketAsWritten(pigeon).error.message != UnsupportedMessage(pigeon.kind)
  {
    var pigeon := Client("localhost", 8000, "carrier-pigeon");
    assert UnsupportedMessage(pigeon.kind)[17] == 'c' != AsWrittenMessage[17];
  }

  /** `_create_socket` with the message naming the client's transport name,
      the same check and message as the server's constructor. */
  function CreateSocket(client: Client): (r: Result<Kind, Fault>)
    ensures r.Success? <==> client.kind == "tcp" || client.kind == "udp"
    ensures r.Success? ==> Name(r.value) == client.kind
    ensures r.Failure? ==> r.error == UnsupportedTransport(UnsupportedMessage(client.kind))
  {
    Parse(client.kind)
  }

  /** With the corrected message, different rejected names give different errors. */
  lemma CreateSocketNamesKind(a: Client, b: Client)
    requires CreateSocket(a).Failure? && CreateSocket(b).Failure?
    requires a.kind != b.kind
    ensures CreateSocket(a) != CreateSocket(b)
  {
    var skip := |UnsupportedMessage("")|;
    assert UnsupportedMessage(a.kind)[skip..] == a.kind;
    assert UnsupportedMessage(b.kind)[skip..] == b.kind;
  }

  /** `_send_request`: the bytes transmitted for `request`, a frame on the
      stream transport and a bare datagram otherwise. */
  function SendRequest(client: Client, codec: Codec, request: Json): (r: Result<seq<byte>, Fault>)
    ensures CreateSocket(client).Failure? ==> r == Failure(CreateSocket(client).error)
    ensures r.Success? <==>
      CreateSocket(client).Success? && Sendable(CreateSocket(client).value, codec.dumps(request))
    ensures CreateSocket(client).Success? && !Sendable(CreateSocket(client).value, codec.dumps(request)) ==>
      r == Failure(LengthOverflow)
    ensures r.Success? ==>
      && Receivable(CreateSocket(client).value, r.value)
      && Unwrap(CreateSocket(client).value, r.value) == codec.dumps(request)
    // nothing is sent beyond the frame or the datagram
    ensures r.Success? && CreateSocket(client).value == Tcp ==>
      |r.value| == Framing.HeaderLength + |codec.dumps(request)|
    ensures r.Success? && CreateSocket(client).value == Udp ==> r.value == codec.dumps(request)
  {
    match CreateSocket(client)
    case Failure(e) => Failure(e)
    case Success(kind) =>
      var payload := codec.dumps(request);
      match Wrap(kind, payload)
      case Failure(e) => Failure(e)
      case Success(bytes) =>
        UnwrapWrap(kind, payload);
        Success(bytes)
  }

  /** `Client.update(data)`: sends an update request carrying `data`. */
  function Update(client: Client, codec: Codec, data: Json): (r: Result<seq<byte>, Fault>)
    ensures r.Success? <==>
      CreateSocket(client).Success? && Sendable(CreateSocket(client).value, codec.dumps(Dispatch.UpdateRequest(data)))
    ensures r.Success? ==>
      && Receivable(CreateSocket(client).value, r.value)
      && Unwrap(CreateSocket(client).value, r.value) == codec.dumps(Dispatch.UpdateRequest(data))
  {
    SendRequest(client, codec, Dispatch.UpdateRequest(data))
  }

  /** The sending half of `Client.get()`. */
  function SendGet(client: Client, codec: Codec): (r: Result<seq<byte>, Fault>)
    ensures r.Success? <==>
      CreateSocket(client).Success? && Sendable(CreateSocket(client).value, codec.dumps(Dispatch.GetRequest()))
    ensures r.Success? ==>
      && Receivable(CreateSocket(client).value, r.value)
      && Unwrap(CreateSocket(client).value, r.value) == codec.dumps(Dispatch.GetRequest())
  {
    SendRequest(client, codec, Dispatch.GetRequest())
  }

  /** `Client.clear()`: sends a clear request. */
  function Clear(client: Client, codec: Codec): (r: Result<seq<byte>, Fault>)
    ensures r.Success? <==>
      CreateSocket(client).Success? && Sendable(CreateSocket(client).value, codec.dumps(Dispatch.ClearRequest()))
    ensures r.Success? ==>
      && Receivable(CreateSocket(client).value, r.value)
      && Unwrap(CreateSocket(client).value, r.value) == codec.dumps(Dispatch.ClearRequest())
  {
    SendRequest(client, codec, Dispatch.ClearRequest())
  }

  /** `_receive_response`, the reading half of `Client.get()`: the value the
      reply bytes carry. */
  function ReceiveResponse(kind: Kind, codec: Codec, wire: seq<byte>): (r: Result<Json, Fault>)
    requires Receivable(kind, wire)
    ensures r.Success? <==> codec.loads(Unwrap(kind, wire)).Some?
    ensures r.Success? ==> codec.loads(Unwrap(kind, wire)) == Some(r.value)
    ensures r.Failure? ==> r.error == Undecodable
  {
    match codec.loads(Unwrap(kind, wire))
    case None => Failure(Undecodable)
    case Some(value) => Success(value)
  }
}

=== FILE: dispatch.dfy ===
/**
  One request's effect on the store, shared by both transports: the
  `update` / `get` / `clear` branches of `Server.listen` together with
  `Server.update_data`.
 */
module Dispatch {
  import opened Wrappers
  import opened Faults
  import opened JsonValue

  const UpdateType: string := "update"
  const GetType: string := "get"
  const ClearType: string := "clear"

  /** The store after a request, and the value sent back, if any. */
  datatype Step = Step(store: Store, reply: Option<Json>)

  /** `dict.update` with a mapping: incoming keys take their new value, every
      other existing key keeps its old one, and no key is dropped. */
  function Merge(store: Store, incoming: Store): (r: Store)
    ensures r.Keys == store.Keys + incoming.Keys
    ensures forall k :: k in incoming ==> r[k] == incoming[k]
    ensures forall k :: k in store && k !in incoming ==> r[k] == store[k]
  {
    store + incoming
  }

  /** `message['type']`: the message must be a JSON object holding "type". */
  function RequestType(message: Json): (r: Result<Json, Fault>)
    ensures r.Success? <==> message.Object? && "type" in message.fields
    ensures r.Success? ==> r.value == message.fields["type"]
    ensures !message.Object? ==> r == Failure(NotSubscriptable)
    ensures message.Object? && "type" !in message.fields ==> r == Failure(MissingKey("type"))
  {
    if !message.Object? then Failure(NotSubscriptable)
    else if "type" !in message.fields then Failure(MissingKey("type"))
    else Success(message.fields["type"])
  }

  /** The store after `update_data(data)`: a JSON object is merged; any other
      value is the NotAMapping fault (for most such values `dict.update` raises). */
  function UpdateStore(store: Store, data: Json): (r: Result<Store, Fault>)
    ensures r.Success? <==> data.Object?
    ensures r.Success? ==> r.value == Merge(store, data.fields)
    ensures r.Failure? ==> r.error == NotAMapping
  {
    match data
    case Object(fields) => Success(Merge(store, fields))
    case _ => Failure(NotAMapping)
  }

  /** The effect of one decoded request on the store. */
  function Dispatch(store: Store, message: Json): (r: Result<Step, Fault>)
    // a request is refused only when it lacks a type, or is an update without mergeable data
    ensures r.Failure? <==>
      || RequestType(message).Failure?
      || (RequestType(message) == Success(Str(UpdateType))
          && ("data" !in message.fields || !message.fields["data"].Object?))
    // and it raises the exception the first failing step raises
    ensures r.Failure? ==>
      r.error == (if RequestType(message).Failure? then RequestType(message).error
                  else if "data" !in message.fields then MissingKey("data")
                  else NotAMapping)
    // an update merges its data into the store and sends nothing
    ensures r.Success? && RequestType(message).value == Str(UpdateType) ==>
      r.value == Step(Merge(store, message.fields["data"].fields), None)
    // clear empties the store and sends nothing
    ensures r.Success? && RequestType(message).value == Str(ClearType) ==>
      r.value == Step(map[], None)
    // get, and only get, replies, with exactly the current store
    ensures r.Success? ==> (r.value.reply.Some? <==> RequestType(message).value == Str(GetType))
    ensures r.Success? && r.value.reply.Some? ==> r.value.reply.value == Object(store)
    // every request other than update and clear leaves the store as it was
    ensures r.Success? && RequestType(message).value !in {Str(UpdateType), Str(ClearType)} ==>
      r.value.store == store
  {
    match RequestType(message)
    case Failure(e) => Failure(e)
    case Success(kind) =>
      if kind == Str(UpdateType) then
        if "data" !in message.fields then Failure(MissingKey("data"))
        else
          match UpdateStore(store, message.fields["data"])
          case Failure(e) => Failure(e)
          case Success(updated) => Success(Step(updated, None))
      else if kind == Str(GetType) then Success(Step(store, Some(Object(store))))
      else if kind == Str(ClearType) then Success(Step(map[], None))
      else Success(Step(store, None))
  }

  /** The request the client builds for each call: an object holding exactly
      a "type" and a "data" key. */
  function Request(kind: string, data: Json): (r: Json)
    ensures r.Object? && r.fields.Keys == {"type", "data"}
    ensures RequestType(r) == Success(Str(kind))
    ensures r.fields["data"] == data
  {
    Object(map["type" := Str(kind), "data" := data])
  }

  /** `Client.update(data)`'s request: typed "update", carrying the caller's data. */
  function UpdateRequest(data: Json): (r: Json)
    ensures RequestType(r) == Success(Str(UpdateType))
    ensures r.Object? && "data" in r.fields && r.fields["data"] == data
  {
    Request(UpdateType, data)
  }

  /** `Client.get()`'s request: typed "get", carrying null. */
  function GetRequest(): (r: Json)
    ensures RequestType(r) == Success(Str(GetType))
    ensures r.Object? && "data" in r.fields && r.fields["data"] == Null
  {
    Request(GetType, Null)
  }

  /** `Client.clear()`'s request: typed "clear", carrying null. */
  function ClearRequest(): (r: Json)
    ensures RequestType(r) == Success(Str(ClearType))
    ensures r.Object? && "data" in r.fields && r.fields["data"] == Null
  {
    Request(ClearType, Null)
  }

  /** The client's requests mean what their names say: `update` merges the
      caller's mapping (any other data is the NotAMapping fault), `get` reads
      the whole store, `clear` empties it. */
  lemma ClientRequests(store: Store, data: Json)
    ensures Dispatch(store, UpdateRequest(data)) ==
      (if data.Object? then Success(Step(Merge(store, data.fields), None)) else Failure(NotAMapping))
    ensures Dispatch(store, GetRequest()) == Success(Step(store, Some(Object(store))))
    ensures Dispatch(store, ClearRequest()) == Success(Step(map[], None))
  {
    assert RequestType(UpdateRequest(data)) == Success(Str(UpdateType));
    assert RequestType(GetRequest()) == Success(Str(GetType));
    assert RequestType(ClearRequest()) == Success(Str(ClearType));
  }

  /** A request of any other type is ignored, whatever its data: the store is
      unchanged and nothing is sent. */
  lemma UnknownTypeIgnored(store: Store, kind: string, data: Json)
    requires kind !in {UpdateType, GetType, ClearType}
    ensures Dispatch(store, Request(kind, data)) == Success(Step(store, None))
  {
    assert RequestType(Request(kind, data)) == Success(Str(kind));
  }

  /** Merging the same mapping twice is the same as merging it once. */
  lemma MergeIdempotent(store: Store, incoming: Store)
    ensures Merge(Merge(store, incoming), incoming) == Merge(store, incoming)
  {
  }

  /** Two updates in a row equal one update with the second mapping laid over the first. */
  lemma MergeSequential(store: Store, first: Store, second: Store)
    ensures Merge(Merge(store, first), second) == Merge(store, Merge(first, second))
  {
  }

  /** Clearing twice equals clearing once, and clearing forgets the old store. */
  lemma ClearIdempotent(store: Store, other: Store)
    ensures Dispatch(Dispatch(store, ClearRequest()).value.store, ClearRequest())
      == Dispatch(store, ClearRequest())
    ensures Dispatch(store, ClearRequest()) == Dispatch(other, ClearRequest())
  {
    ClientRequests(store, Null);
    ClientRequests(other, Null);
    ClientRequests(map[], Null);
  }

  /** After an update with `data`, a get replies with every key of `data`
      bound to its new value and every other old key bound to its old value. */
  lemma GetReflectsUpdate(store: Store, data: Store)
    ensures Dispatch(store, UpdateRequest(Object(data))).Success?
    ensures
      var after := Dispatch(store, UpdateRequest(Object(data))).value.store;
      var reply := Dispatch(after, GetRequest()).value.reply;
      && reply.Some? && reply.value.Object?
      && (forall k :: k in data ==> k in reply.value.fields && reply.value.fields[k] == data[k])
      && (forall k :: k in store && k !in data ==> k in reply.value.fields && reply.value.fields[k] == store[k])
      && reply.value.fields.Keys == store.Keys + data.Keys
  {
    ClientRequests(store, Object(data));
    ClientRequests(Merge(store, data), Null);
  }

  /** The two worked examples of the merge rule: {"a": 1} updated with
      {"b": 2} is {"a": 1, "b": 2}; updated with {"a": 3} it is {"a": 3}. */
  lemma MergeExamples()
    ensures Merge(map["a" := Number(1)], map["b" := Number(2)]) == map["a" := Number(1), "b" := Number(2)]
    ensures Merge(map["a" := Number(1)], map["a" := Number(3)]) == map["a" := Number(3)]
  {
  }
}

=== FILE: faults.dfy ===
/** The exceptions the store's code can raise, as values. */
module Faults {

  datatype Fault =
    /** ValueError for a transport kind other than "tcp" or "udp"; carries the message text. */
    | UnsupportedTransport(message: string)
    /** OverflowError: a payload length does not fit the 4-byte prefix. */
    | LengthOverflow
    /** OverflowError: `bind` was given a port outside 0..65535. */
    | PortOutOfRange
    /** OSError (EINVAL): `bind` on a socket that already has a local address. */
    | AddressAssigned
    /** The payload is not UTF-8 JSON (the JSON library's decode error). */
    | Undecodable
    /** TypeError: a request that is not a JSON object cannot be indexed by a key. */
    | NotSubscriptable
    /** KeyError: a request object lacks a key the dispatcher reads. */
    | MissingKey(key: string)
    /** TypeError or ValueError from `dict.update`: the data of an `update` request is not a mapping. */
    | NotAMapping
}

=== FILE: framing.dfy ===
/**
  Length-prefixed framing of the stream ("tcp") transport: a frame is the
  payload's length as a 4-byte unsigned big-endian integer followed by the
  payload bytes. The server writes frames in `send_data` and reads them in
  `get_data`; the client writes them in `_send_request` and reads them in
  `_receive_response`. All four use this one definition.
 */
module Framing {
  import opened Wrappers
  import opened Faults
  import opened BigEndian

  /** Width of the length prefix, in bytes. */
  const HeaderLength: nat := 4

  /** Payloads must be strictly shorter than this to be framed. */
  const MaxPayload: nat := 0x1_0000_0000

  lemma MaxPayloadIsHeaderRange()
    ensures Pow256(HeaderLength) == MaxPayload
  {
    assert Pow256(2) == 0x1_0000;
  }

  /** The length of `payload` can be written in the prefix. */
  predicate Fits(payload: seq<byte>)
  {
    |payload| < MaxPayload
  }

  /** The bytes a writer puts on the stream for one payload. Writing the length
      as 4 bytes raises OverflowError for payloads of 2^32 bytes or more. */
  function Encode(payload: seq<byte>): (r: Result<seq<byte>, Fault>)
    ensures r.Success? <==> Fits(payload)
    ensures r.Failure? ==> r.error == LengthOverflow
    ensures r.Success? ==> |r.value| == HeaderLength + |payload|
    ensures r.Success? ==> FromBytes(r.value[..HeaderLength]) == |payload|
    ensures r.Success? ==> r.value[HeaderLength..] == payload
  {
    if Fits(payload) then
      MaxPayloadIsHeaderRange();
      var header := ToBytes(|payload|, HeaderLength);
      var frame := header + payload;
      assert frame[..HeaderLength] == header;
      Success(frame)
    else
      Failure(LengthOverflow)
  }

  /** The length a reader takes from the first four bytes of the stream. */
  function DeclaredLength(stream: seq<byte>): (n: nat)
    requires |stream| >= HeaderLength
    ensures n < MaxPayload
  {
    MaxPayloadIsHeaderRange();
    FromBytes(stream[..HeaderLength])
  }

  /** The stream holds a whole frame: the prefix and as many payload bytes as it
      declares. The readers never check this; it stands for both `recv` calls
      returning every byte they ask for. */
  predicate Complete(stream: seq<byte>)
  {
    |stream| >= HeaderLength && |stream| - HeaderLength >= DeclaredLength(stream)
  }

  /** A frame read from the front of the stream: its payload, and the bytes
      that follow the frame. */
  datatype Read = Read(payload: seq<byte>, rest: seq<byte>)

  /** Reads one frame from the front of a stream that holds a whole frame. */
  function Decode(stream: seq<byte>): (r: Read)
    requires Complete(stream)
    ensures |r.payload| == DeclaredLength(stream)
    ensures stream == stream[..HeaderLength] + r.payload + r.rest
  {
    var body := stream[HeaderLength..];
    var n := DeclaredLength(stream);
    var r := Read(body[..n], body[n..]);
    assert stream == stream[..HeaderLength] + body;
    assert body == r.payload + r.rest;
    r
  }

  /** A frame the writer produced is read back as exactly its payload, whatever
      follows it on the stream; in particular frames written one after another
      are read back one after another. */
  lemma DecodeEncode(payload: seq<byte>, rest: seq<byte>)
    requires Fits(payload)
    ensures Complete(Encode(payload).value + rest)
    ensures Decode(Encode(payload).value + rest) == Read(payload, rest)
  {
    var frame := Encode(payload).value;
    var stream := frame + rest;
    assert stream[..HeaderLength] == frame[..HeaderLength];
    assert stream[HeaderLength..] == payload + rest;
  }

  /** Conversely, re-encoding the payload the reader took gives back the exact
      bytes it consumed: the encoding is the only way to write that frame. */
  lemma EncodeDecode(stream: seq<byte>)
    requires Complete(stream)
    ensures Fits(Decode(stream).payload)
    ensures Encode(Decode(stream).payload).value + Decode(stream).rest == stream
  {
    var r := Decode(stream);
    var frame := Encode(r.payload).value;
    FromBytesInjective(frame[..HeaderLength], stream[..HeaderLength]);
    assert frame == frame[..HeaderLength] + frame[HeaderLength..];
  }

  /** Every frame on the wire is exactly four bytes longer than its payload,
      and the payload is what follows the prefix. */
  lemma HeaderIsFourBytes(payload: seq<byte>)
    requires Fits(payload)
    ensures Encode(payload).value == Encode(payload).value[..4] + payload
    ensures |Encode(payload).value| - |payload| == 4
  {
    var frame := Encode(payload).value;
    assert frame == frame[..HeaderLength] + frame[HeaderLength..];
  }
}

=== FILE: json.dfy ===
/**
  JSON values as the store holds them, the store itself, and the JSON text
  codec (`json.dumps` / `json.loads` with UTF-8), which is a library the model
  does not look inside and so takes as a parameter.
 */
module JsonValue {
  import opened Wrappers
  import opened BigEndian

  datatype Json =
    | Null
    | Bool(b: bool)
    | Number(n: int)
    | Str(s: string)
    | Array(items: seq<Json>)
    | Object(fields: map<string, Json>)

  /** The server's in-memory key-value mapping. */
  type Store = map<string, Json>

  /** Serialisation to UTF-8 JSON text and parsing back; `loads` yields None
      where the library would raise a decode error. */
  datatype Codec = Codec(dumps: Json -> seq<byte>, loads: seq<byte> -> Option<Json>)

  /** Parsing what was serialised gives the value back. */
  ghost predicate Faithful(codec: Codec)
  {
    forall j :: codec.loads(codec.dumps(j)) == Some(j)
  }
}

=== FILE: server.dfy ===
/**
  The store server: its construction, and one call of `listen`, which takes
  one request off the wire, applies it to the store and, for `get`, sends the
  store back. Of the socket calls, only the local-address rules of `bind` and
  `listen` that decide whether construction succeeds are modelled; accept,
  send, recv and close are not, so `listen` is given the bytes it receives
  and returns the bytes it sends.
 */
module StoreServer {
  import opened Wrappers
  import opened Faults
  import opened BigEndian
  import opened JsonValue
  import opened Transport
  import Framing
  import Dispatch

  datatype Server = Server(port: int, kind: Kind, store: Store)

  /** The part of a socket the constructor changes: its local port, once it
      has one, and whether it accepts connections. */
  datatype Socket = Socket(kind: Kind, local: Option<int>, accepting: bool)

  /** A socket as `socket.socket(...)` creates it: no address, not listening. */
  function Fresh(kind: Kind): Socket
  {
    Socket(kind, None, false)
  }

  /** A port number `bind` accepts; any other raises OverflowError. */
  predicate ValidPort(port: int)
  {
    0 <= port <= 0xFFFF
  }

  /** `sock.bind((host, port))`: the port must lie in 0..65535, checked before
      the socket is looked at (OverflowError); a socket is given a local
      address at most once, and binding one that already has an address
      raises OSError (EINVAL). */
  function BindTo(sock: Socket, port: int): (r: Result<Socket, Fault>)
    ensures r.Success? <==> ValidPort(port) && sock.local.None?
    ensures r.Success? ==> r.value.local == Some(port) && r.value.kind == sock.kind
    ensures !ValidPort(port) ==> r == Failure(PortOutOfRange)
    ensures ValidPort(port) && sock.local.Some? ==> r == Failure(AddressAssigned)
  {
    if !ValidPort(port) then Failure(PortOutOfRange)
    else if sock.local.None? then Success(sock.(local := Some(port)))
    else Failure(AddressAssigned)
  }

  /** `sock.listen(backlog)` on a stream socket: a socket without an address is
      first given an ephemeral local port, chosen by the operating system. */
  function StartListening(sock: Socket, ephemeral: int): (r: Socket)
    requires sock.kind == Tcp
    ensures r.accepting && r.kind == sock.kind
    ensures r.local.Some?
    ensures sock.local.Some? ==> r.local == sock.local
  {
    sock.(local := if sock.local.None? then Some(ephemeral) else sock.local, accepting := true)
  }

  /** The socket calls of `Server.__init__` as written: a stream socket
      listens before it is bound, so it already holds an ephemeral address
      when `bind` runs and the bind is refused. */
  function PrepareAsWritten(kind: Kind, port: int, ephemeral: int): (r: Result<Socket, Fault>)
    ensures r.Success? <==> kind == Udp && ValidPort(port)
    ensures r.Success? ==> r.value.local == Some(port) && !r.value.accepting
    ensures r.Failure? ==> r.error == (if ValidPort(port) then AddressAssigned else PortOutOfRange)
  {
    var sock := if kind == Tcp then StartListening(Fresh(kind), ephemeral) else Fresh(kind);
    BindTo(sock, port)
  }

  /** The socket calls in the evidently intended order: bind to `port`, then,
      for a stream socket, listen. */
  function Prepare(kind: Kind, port: int): (r: Result<Socket, Fault>)
    ensures r.Success? <==> ValidPort(port)
    ensures r.Success? ==> r.value.kind == kind && r.value.local == Some(port)
    ensures r.Success? ==> (r.value.accepting <==> kind == Tcp)
    ensures r.Failure? ==> r.error == PortOutOfRange
  {
    match BindTo(Fresh(kind), port)
    case Failure(e) => Failure(e)
    case Success(bound) => Success(if kind == Tcp then StartListening(bound, port) else bound)
  }

  /** `Server(port, type)` as written: the transport name is checked first,
      then the socket calls run. */
  function NewAsWritten(port: int, ephemeral: int, name: string := "tcp"): (r: Result<Server, Fault>)
    ensures r.Success? <==> name == "udp" && ValidPort(port)
    ensures r.Success? ==> r.value == Server(port, Udp, map[])
    ensures name == "tcp" ==> r == Failure(if ValidPort(port) then AddressAssigned else PortOutOfRange)
    ensures name != "tcp" && name != "udp" ==> r == Failure(UnsupportedTransport(UnsupportedMessage(name)))
  {
    match Parse(name)
    case Failure(e) => Failure(e)
    case Success(kind) =>
      match PrepareAsWritten(kind, port, ephemeral)
      case Failure(e) => Failure(e)
      case Success(_) => Success(Server(port, kind, map[]))
  }

  /** As written, no stream server can be built, on any port, whichever
      ephemeral port the operating system picks; the corrected constructor
      builds it on every port `bind` accepts. */
  lemma NewAsWrittenRefusesTcp(port: int, ephemeral: int)
    ensures NewAsWritten(port, ephemeral).Failure?
    ensures ValidPort(port) ==> NewAsWritten(port, ephemeral) == Failure(AddressAssigned)
    ensures ValidPort(port) ==> New(port) == Success(Server(port, Tcp, map[]))
  {
  }

  /** `Server(port, type)` with the socket bound before it listens: the
      transport kind must be "tcp" or "udp", the port one `bind` accepts, and
      the server starts on `port` with an empty store. */
  function New(port: int, name: string := "tcp"): (r: Result<Server, Fault>)
    ensures r.Success? <==> (name == "tcp" || name == "udp") && ValidPort(port)
    ensures r.Success? ==> r.value.port == port && Name(r.value.kind) == name && r.value.store == map[]
    ensures name != "tcp" && name != "udp" ==> r == Failure(UnsupportedTransport(UnsupportedMessage(name)))
    ensures (name == "tcp" || name == "udp") && !ValidPort(port) ==> r == Failure(PortOutOfRange)
  {
    match Parse(name)
    case Failure(e) => Failure(e)
    case Success(kind) =>
      match Prepare(kind, port)
      case Failure(e) => Failure(e)
      case Success(_) => Success(Server(port, kind, map[]))
  }

  /** What one `listen` call leaves behind: the server with its new store,
      and the bytes sent back to the client, if any. */
  datatype Served = Served(server: Server, reply: Option<seq<byte>>)

  /** One call of `listen` that received `wire` (the connection's bytes on the
      stream transport, the datagram on the datagram transport). A failure is
      the exception that leaves `listen`; the server keeps its old store then. */
  function Listen(server: Server, codec: Codec, wire: seq<byte>): (r: Result<Served, Fault>)
    requires Receivable(server.kind, wire)
    ensures codec.loads(Unwrap(server.kind, wire)).None? ==> r == Failure(Undecodable)
    ensures r.Success? ==> r.value.server.port == server.port && r.value.server.kind == server.kind
    // the new store and the reply are the dispatch step of the decoded request
    ensures r.Success? ==>
      && codec.loads(Unwrap(server.kind, wire)).Some?
      && var step := Dispatch.Dispatch(server.store, codec.loads(Unwrap(server.kind, wire)).value);
      && step.Success?
      && r.value.server.store == step.value.store
      && r.value.reply.Some? == step.value.reply.Some?
    // a decoded request that dispatch refuses raises dispatch's exception
    ensures (codec.loads(Unwrap(server.kind, wire)).Some?
             && Dispatch.Dispatch(server.store, codec.loads(Unwrap(server.kind, wire)).value).Failure?) ==>
      r == Failure(Dispatch.Dispatch(server.store, codec.loads(Unwrap(server.kind, wire)).value).error)
    // a decoded request that dispatch accepts is served, unless its reply is too long to frame
    ensures (codec.loads(Unwrap(server.kind, wire)).Some?
             && Dispatch.Dispatch(server.store, codec.loads(Unwrap(server.kind, wire)).value).Success?) ==>
      var reply := Dispatch.Dispatch(server.store, codec.loads(Unwrap(server.kind, wire)).value).value.reply;
      if reply.None? || Sendable(server.kind, codec.dumps(reply.value)) then r.Success?
      else r == Failure(LengthOverflow)
    // a reply is the current store, wrapped so that the client can read it back
    ensures r.Success? && r.value.reply.Some? ==>
      && r.value.server == server
      && Receivable(server.kind, r.value.reply.value)
      && Unwrap(server.kind, r.value.reply.value) == codec.dumps(Object(server.store))
    // nothing is sent beyond the frame or the datagram
    ensures r.Success? && r.value.reply.Some? && server.kind == Tcp ==>
      |r.value.reply.value| == Framing.HeaderLength + |codec.dumps(Object(server.store))|
    ensures r.Success? && r.value.reply.Some? && server.kind == Udp ==>
      r.value.reply.value == codec.dumps(Object(server.store))
  {
    match codec.loads(Unwrap(server.kind, wire))
    case None => Failure(Undecodable)
    case Some(message) =>
      match Dispatch.Dispatch(server.store, message)
      case Failure(e) => Failure(e)
      case Success(step) =>
        var next := server.(store := step.store);
        match step.reply
        case None => Success(Served(next, None))
        case Some(value) =>
          var payload := codec.dumps(value);
          match Wrap(server.kind, payload)
          case Failure(e) => Failure(e)
          case Success(bytes) =>
            UnwrapWrap(server.kind, payload);
            Success(Served(next, Some(bytes)))
  }
}

=== FILE: session.dfy ===
/**
  A client talking to a server: what the client transmits is what the
  server's `listen` receives, and the server's reply is what the client's
  `get` reads. The JSON codec is assumed faithful (parsing what was
  serialised gives the value back); everything else is proved.
 */
module Session {
  import opened Wrappers
  import opened JsonValue
  import opened Transport
  import opened Dispatch
  import opened StoreServer
  import opened StoreClient

  /** The client and the server use the same transport. */
  predicate Matched(server: Server, client: Client)
  {
    client.kind == Name(server.kind)
  }

  /** Any request the client transmits reaches the server's dispatcher intact,
      on either transport, and `listen` applies exactly that request. */
  lemma Deliver(server: Server, client: Client, codec: Codec, request: Json)
    requires Faithful(codec)
    requires Matched(server, client)
    requires Sendable(server.kind, codec.dumps(request))
    ensures SendRequest(client, codec, request).Success?
    ensures Receivable(server.kind, SendRequest(client, codec, request).value)
    ensures codec.loads(Unwrap(server.kind, SendRequest(client, codec, request).value)) == Some(request)
  {
    ParseName(server.kind);
  }

  /** A get over either transport replies with exactly the server's store,
      leaves the server as it was, and the client reads that store back. */
  lemma GetReturnsStore(server: Server, client: Client, codec: Codec)
    requires Faithful(codec)
    requires Matched(server, client)
    requires Sendable(server.kind, codec.dumps(GetRequest()))
    requires Sendable(server.kind, codec.dumps(Object(server.store)))
    ensures SendGet(client, codec).Success?
    ensures Receivable(server.kind, SendGet(client, codec).value)
    ensures
      var served := Listen(server, codec, SendGet(client, codec).value);
      && served.Success?
      && served.value.server == server
      && served.value.reply.Some?
      && Receivable(server.kind, served.value.reply.value)
      && ReceiveResponse(server.kind, codec, served.value.reply.value) == Success(Object(server.store))
  {
    Deliver(server, client, codec, GetRequest());
    ClientRequests(server.store, Null);
    var served := Listen(server, codec, SendGet(client, codec).value);
    assert served.Success?;
  }

  /** An update is applied as a merge and sends nothing back. */
  lemma UpdateMerges(server: Server, client: Client, codec: Codec, data: Store)
    requires Faithful(codec)
    requires Matched(server, client)
    requires Sendable(server.kind, codec.dumps(UpdateRequest(Object(data))))
    ensures Update(client, codec, Object(data)).Success?
    ensures Receivable(server.kind, Update(client, codec, Object(data)).value)
    ensures Listen(server, codec, Update(client, codec, Object(data)).value)
      == Success(Served(server.(store := Merge(server.store, data)), None))
  {
    Deliver(server, client, codec, UpdateRequest(Object(data)));
    ClientRequests(server.store, Object(data));
  }

  /** A clear empties the server's store, whatever it held, and sends nothing back. */
  lemma ClearEmpties(server: Server, client: Client, codec: Codec)
    requires Faithful(codec)
    requires Matched(server, client)
    requires Sendable(server.kind, codec.dumps(ClearRequest()))
    ensures Clear(client, codec).Success?
    ensures Receivable(server.kind, Clear(client, codec).value)
    ensures Listen(server, codec, Clear(client, codec).value)
      == Success(Served(server.(store := map[]), None))
  {
    Deliver(server, client, codec, ClearRequest());
    ClientRequests(server.store, Null);
  }

  /** A get reflects the last write: after `update(data)`, `get` returns the
      old store overridden by `data`, on both transports; from a fresh server
      that is `data` itself. */
  lemma GetAfterUpdate(server: Server, client: Client, codec: Codec, data: Store)
    requires Faithful(codec)
    requires Matched(server, client)
    requires Sendable(server.kind, codec.dumps(UpdateRequest(Object(data))))
    requires Sendable(server.kind, codec.dumps(GetRequest()))
    requires Sendable(server.kind, codec.dumps(Object(Merge(server.store, data))))
    ensures Update(client, codec, Object(data)).Success?
    ensures Receivable(server.kind, Update(client, codec, Object(data)).value)
    ensures
      var updated := Listen(server, codec, Update(client, codec, Object(data)).value);
      && updated.Success?
      && SendGet(client, codec).Success?
      && Receivable(updated.value.server.kind, SendGet(client, codec).value)
      && var served := Listen(updated.value.server, codec, SendGet(client, codec).value);
      && served.Success?
      && served.value.reply.Some?
      && Receivable(server.kind, served.value.reply.value)
      && ReceiveResponse(server.kind, codec, served.value.reply.value)
        == Success(Object(Merge(server.store, data)))
    ensures server.store == map[] ==>
      var updated := Listen(server, codec, Update(client, codec, Object(data)).value);
      var served := Listen(updated.value.server, codec, SendGet(client, codec).value);
      ReceiveResponse(server.kind, codec, served.value.reply.value) == Success(Object(data))
  {
    UpdateMerges(server, client, codec, data);
    var next := server.(store := Merge(server.store, data));
    GetReturnsStore(next, client, codec);
    if server.store == map[] {
      assert Merge(server.store, data) == data;
    }
  }

  /** A request of any other type leaves the server unchanged and sends nothing,
      on both transports. */
  lemma UnknownTypeIgnoredOnWire(server: Server, client: Client, codec: Codec, kind: string, data: Json)
    requires Faithful(codec)
    requires Matched(server, client)
    requires kind !in {UpdateType, GetType, ClearType}
    requires Sendable(server.kind, codec.dumps(Request(kind, data)))
    ensures SendRequest(client, codec, Request(kind, data)).Success?
    ensures Receivable(server.kind, SendRequest(client, codec, Request(kind, data)).value)
    ensures Listen(server, codec, SendRequest(client, codec, Request(kind, data)).value)
      == Success(Served(server, None))
  {
    Deliver(server, client, codec, Request(kind, data));
    UnknownTypeIgnored(server.store, kind, data);
  }
}

=== FILE: transport.dfy ===
/**
  The two transport kinds and what each puts on the wire for one message:
  a length-prefixed frame on the stream transport, the bare payload as one
  datagram on the datagram transport.
 */
module Transport {
  import opened Wrappers
  import opened Faults
  import opened BigEndian
  import Framing

  datatype Kind = Tcp | Udp

  /** The name a caller passes for each kind. */
  function Name(kind: Kind): string
  {
    match kind
    case Tcp => "tcp"
    case Udp => "udp"
  }

  /** The text of the ValueError raised for an unsupported kind `name`. */
  function UnsupportedMessage(name: string): string
  {
    "unsupported type " + name
  }

  /** The kind selected by a constructor argument: "tcp" or "udp", anything
      else is refused with a ValueError that names the value. */
  function Parse(name: string): (r: Result<Kind, Fault>)
    ensures r.Success? <==> name == "tcp" || name == "udp"
    ensures r.Success? ==> Name(r.value) == name
    ensures r.Failure? ==> r.error == UnsupportedTransport(UnsupportedMessage(name))
  {
    if name == "tcp" then Success(Tcp)
    else if name == "udp" then Success(Udp)
    else Failure(UnsupportedTransport(UnsupportedMessage(name)))
  }

  /** Every kind is selected by its own name, so Parse and Name are inverse. */
  lemma ParseName(kind: Kind)
    ensures Parse(Name(kind)) == Success(kind)
  {
  }

  /** A payload can be sent: always on datagrams, on the stream only when its
      length fits the prefix (datagram size limits are not modelled). */
  predicate Sendable(kind: Kind, payload: seq<byte>)
  {
    kind == Udp || Framing.Fits(payload)
  }

  /** The bytes sent for one payload. */
  function Wrap(kind: Kind, payload: seq<byte>): (r: Result<seq<byte>, Fault>)
    ensures r.Success? <==> Sendable(kind, payload)
    ensures r.Failure? ==> r.error == LengthOverflow
    ensures r.Success? && kind == Udp ==> r.value == payload
    ensures r.Success? && kind == Tcp ==> |r.value| == Framing.HeaderLength + |payload|
    ensures r.Success? && kind == Tcp ==>
      && FromBytes(r.value[..Framing.HeaderLength]) == |payload|
      && r.value[Framing.HeaderLength..] == payload
  {
    match kind
    case Tcp => Framing.Encode(payload)
    case Udp => Success(payload)
  }

  /** The received bytes can be read as one message: on the stream, a whole frame. */
  predicate Receivable(kind: Kind, wire: seq<byte>)
  {
    kind == Tcp ==> Framing.Complete(wire)
  }

  /** The payload a receiver takes from the received bytes. */
  function Unwrap(kind: Kind, wire: seq<byte>): (payload: seq<byte>)
    requires Receivable(kind, wire)
    ensures kind == Udp ==> payload == wire
    ensures kind == Tcp ==> |payload| == Framing.DeclaredLength(wire)
    ensures kind == Tcp ==>
      payload == wire[Framing.HeaderLength..Framing.HeaderLength + Framing.DeclaredLength(wire)]
  {
    match kind
    case Tcp => Framing.Decode(wire).payload
    case Udp => wire
  }

  /** Sender and receiver agree on both transports: what one side wraps, the
      other side unwraps to the same payload. */
  lemma UnwrapWrap(kind: Kind, payload: seq<byte>)
    requires Sendable(kind, payload)
    ensures Receivable(kind, Wrap(kind, payload).value)
    ensures Unwrap(kind, Wrap(kind, payload).value) == payload
  {
    if kind == Tcp {
      var frame := Framing.Encode(payload).value;
      Framing.DecodeEncode(payload, []);
      assert frame + [] == frame;
    }
  }
}

=== FILE: wrappers.dfy ===
/** Optional values and results that may carry an exception, shared by the rest of the model. */
module Wrappers {

  /** A value that may be absent: Python's `None` versus a present value. */
  datatype Option<+T> = None | Some(value: T)

  /** The outcome of an operation that can raise: a value, or the exception it raises. */
  datatype Result<+T, +E> = Success(value: T) | Failure(error: E)
}
